=== FILE: README.md ===
# item-store, modelled in Dafny

item-store is a small command-line list manager. It keeps a list of item
names in one text file, `items`, one item per line. `add` appends items,
`remove` rewrites the file without the named items, and `list` prints the
file. This project models the whole program as pure functions. A run is
`Cli.Run(args, store)`, which returns what is printed, the exit status and
the new file contents. `args` is the full argument vector, program name
first. `store` is the file's contents, or `None` when the file does not
exist.

Files:

- `wrappers.dfy`: `Option`, for a file that may not exist.
- `go_strings.dfy`: Go's `strings.TrimSpace`, `strings.Split` and `strings.Join`, with
  their defining properties. Splitting on a separator that occurs k times gives k + 1
  pieces, and `Split("", "\n") == [""]`. Trimming is fixed by its result: for
  white space, then a trimmed string t, then white space, the result is t. `Split`
  and `Join` are inverses.
- `store.dfy`: the three operations on the file contents.
  - `Append` models add.
  - `Parse`, `Filter` and `Rewrite` model remove. `Filter` and `Rewrite` are plain
    definitions; their properties are the lemmas `FilterMembers`, `FilterCounts`,
    `FilterAppend` and `RewriteReadsBack`.
  - `Listing` models list.
  - The file format is `Unlines`: each item followed by a newline.
  - Methods `RemovalSet`, `WriteSurvivors`, `RemoveLines` and `AppendLines` follow the
    source's loops step by step. Each is proved to agree with the functional definitions.
- `cli.dfy`: the dispatcher `Run`, plus lemmas about whole runs. These cover the
  usage errors, the help line, read errors on a missing file, and the add/remove/list
  round trips.

Behaviours of the code that the model keeps on purpose:

- remove and list trim white space from the whole file, not just the final
  newline. So white-space-only lines and white space at the start and at the
  end of the file are lost: leading blank lines disappear, and the first line
  with content then loses its leading white space.
- remove on an empty file writes a single empty line (`"\n"`), unless `""` is one
  of the operands.
- remove is not idempotent (`Cli.RemoveIsNotIdempotent`).
- remove compares its operands with the lines of the trimmed contents, not with
  the lines of the file. So an operand deletes a first line with leading white
  space (`Cli.RemoveMatchesTrimmedLine`), or a last line with trailing white
  space (`Cli.RemoveMatchesTrimmedLastLine`), that it does not equal byte for byte.
- Removing items that no line of the trimmed contents equals rewrites the file
  as its trimmed contents plus one newline. So the file stays byte-for-byte unchanged exactly
  when it already has that form (`Cli.RemoveWithoutMatchKeepsEveryLine`). That is
  the case, in particular, for a non-empty file written by add from clean items
  (`Cli.RemoveAbsentItemKeepsCleanFile`). A clean item is non-empty, has no newline,
  and has no white space at either end. Other files are normalised
  (`Cli.RemoveAbsentItemNormalisesFile`).

## Model

| member | source | states |
|---|---|---|
| Cli.Run | store.go:17-43 | Dispatches on the action, and ends a failing run through the model of `exit` and `check` (store.go:122-131), `Cli.Exit`. Every run exits 0 or 1. An exit-1 run prints a message and leaves the file as it was. No run deletes the file. Only add or remove with at least one item can change the file. Output is empty exactly for a successful add or remove. |
| Cli.NoActionIsUsageError | store.go:18-20 | With no action argument, the run prints "Expected action argument.", exits 1, and leaves the file unchanged. |
| Cli.AddWithoutItemsIsUsageError | store.go:25-29 | add with no items prints its usage message and exits 1. The file is neither read nor created. |
| Cli.RemoveWithoutItemsIsUsageError | store.go:31-35 | remove with no items prints its usage message and exits 1. The file is neither read nor created. |
| Cli.UnknownActionPrintsHelp | store.go:39-42 | An unknown action prints "Valid actions are: add remove list", exits 0, and changes nothing. |
| Cli.AddAppendsItems | store.go:81-97 | add writes the old contents (or "" for a missing file) followed by each item and a newline, in order. The old contents are a prefix of the new ones. The file now exists. When no item contains a newline, the appended part splits back into the items. |
| Cli.RemoveOfAbsentFileFails | store.go:45-47 | remove on a missing file prints the read error, exits 1, and the file stays missing. |
| Cli.ListOfAbsentFileFails | store.go:99-103 | list on a missing file prints the read error, exits 1, and the file stays missing. |
| Cli.RemoveKeepsExactlySurvivors | store.go:45-79 | remove writes exactly the parsed lines that no operand names, each with a newline, in the original order. The result splits back into those lines followed by an empty piece. No survivor is named. Every copy of a named line is dropped, and every copy of any other line is kept. |
| Cli.RemoveWithoutMatchKeepsEveryLine | store.go:45-79 | If no operand names a parsed line, every parsed line is written back, with exactly one newline per line. The result is the trimmed contents plus a newline, so the file is unchanged exactly when it already equals its trimmed contents plus a newline. |
| Cli.RemoveOnEmptyFile | store.go:51 | remove on an empty file writes "\n", or writes "" when "" is an operand. |
| Cli.RemoveIsNotIdempotent | store.go:49-51 | For distinct clean items x and a, removing x from x, an empty line and a writes "\n" + a + "\n". Removing x again writes a + "\n", which differs, so remove is not idempotent. |
| Cli.RemoveAbsentItemKeepsCleanFile | store.go:45-79 | On a non-empty file written by add from clean items, removing items that are not stored leaves the contents unchanged. |
| Cli.RemoveAbsentItemNormalisesFile | store.go:51 | Removing absent items from a clean line with leading white space writes the line without that white space, so the rewrite is not byte-for-byte in general. |
| Cli.RemoveMatchesTrimmedLine | store.go:51-75 | From a file that is just one line, that clean item after leading white space, an operand equal to the item removes the line and leaves an empty file, though the line itself differs from the operand. |
| Cli.RemoveMatchesTrimmedLastLine | store.go:51-75 | From a file that is just one line, that clean item followed by trailing white space, an operand equal to the item removes the line and leaves an empty file, though the line itself differs from the operand. |
| Cli.ListPrintsTrimmedContents | store.go:99-104 | list prints the contents with surrounding white space trimmed, then a newline. It exits 0 and leaves the file unchanged. |
| Cli.ListAfterAdd | store.go:81-104 | After add of at least one clean item to a missing or empty file, list prints the items joined by newlines, in order and with duplicates. |
| Cli.ListAfterAddAndRemove | store.go:45-104 | After add of at least one clean item to a missing or empty file, then remove, then list, the output is exactly the added items that no operand names, in their original order. |
| GoStrings.TrimSpace | store.go:51 | The result has no white space at either end. It is the part of the input between a leading white-space run and a trailing white-space run. |
| GoStrings.TrimSpaceUnique | store.go:51 | For white space a, a trimmed string t and white space b, trimming a + t + b gives exactly t. |
| GoStrings.TrimSpaceOfTrimmed | store.go:51 | A string with no white space at either end is left unchanged by trimming. |
| GoStrings.TrimSpaceIdempotent | store.go:51 | A property of the TrimSpace used here (and at line 104): trimming twice is the same as trimming once. |
| GoStrings.Split | store.go:51 | k separators give k + 1 pieces. No piece contains the separator. Joining the pieces with the separator gives back the input. |
| GoStrings.SplitJoin | store.go:51 | Splitting a join of separator-free pieces (at least one piece) gives back the pieces. |
| Store.UnlinesJoin | store.go:88-91 | The file format (each item, then a newline) is the items joined by newlines, with an empty final piece. |
| Store.UnlinesSplit | store.go:88-91 | Written newline-free items split back into the items followed by an empty piece. The text has one newline per item. |
| Store.FilterMembers | store.go:71-78 | A line survives exactly when it was in the input and no operand names it. |
| Store.FilterCounts | store.go:71-78 | Each named line keeps no copies, and every other line keeps all of its copies. |
| Store.FilterAppend | store.go:71-78 | Filtering works line by line: it distributes over concatenation, so survivors keep their relative order. |
| Store.FilterNoMatch | store.go:71-78 | If no line is named, every line is kept. |
| Store.Parse | store.go:51 | remove's reading gives at least one line. No line contains a newline. The lines joined by newlines are the trimmed contents. |
| Store.Append | store.go:81-97 | For any items, the new contents are the old contents followed by the items joined by newlines with a final newline after the last, so each item is written with a newline even when it contains one. The old contents are a prefix of the new ones. The appended part splits back into the items when they have no newline. |
| Store.RewriteReadsBack | store.go:45-79 | What remove writes splits back into exactly the surviving lines, followed by an empty piece. The file is left empty exactly when every parsed line is named by an operand. |
| Store.Listing | store.go:104 | The output ends in a newline. Without that newline, it splits into exactly the lines remove would parse. |
| Store.TrimUnlines | store.go:104 | Trimming a file written from at least one clean item gives the items joined by newlines. |
| Store.ParseUnlines | store.go:51 | A file written from at least one clean item parses back into exactly those items. |
| Store.RemovalSet | store.go:53-56 | The map built from the operands reads true exactly for the operands. |
| Store.WriteSurvivors | store.go:71-78 | The writing loop produces each unnamed line and a newline, in order. |
| Store.RemoveLines | store.go:45-79 | remove's parse, map-building and writing steps together produce the contents `Rewrite` defines. |
| Store.AppendLines | store.go:81-97 | add's write loop produces the contents `Append` defines. |

## Left out

- File-system effects: opening, creating and truncating the file, its 0644 mode, and
  its relative path in the working directory. The file is its contents, `Option<string>`.
- I/O failures other than a missing file. This covers failures of `os.Create` and
  `os.OpenFile`, failed writes, and the ignored `WriteString` result in remove. These
  depend on the operating system, not on the program's logic.
- The read-error text is fixed to what Go reports on Linux for a missing file
  ("open items: no such file or directory"). Other systems word it differently.
- Buffered writing and `Flush` in add. They do not change the resulting contents.
- `os.Exit` and printing as side effects. A run returns its output and exit status
  as values.
- Concurrent runs on the same file. The program does no coordination.
- The commented-out alternative implementations in remove and list. They are dead code.
- GoStrings.IsSpace: works on characters (Unicode scalar values), while Go works on
  the bytes of a string. Byte sequences that are not valid UTF-8 are not modelled.
  The white-space set is Unicode White_Space, as `unicode.IsSpace` defines it.

=== FILE: cli.dfy ===
/**
 The command-line entry point: a dispatch on the first argument to one of
 the three store operations, with the exit-code rules of the program. A run
 is a pure function from the argument vector (program name first) and the
 data file's contents to what is printed, the exit status and the new contents.
 */
module Cli {
  import opened Wrappers
  import opened GoStrings
  import opened Store

  const ActionAdd := "add"
  const ActionRemove := "remove"
  const ActionList := "list"

  const NoActionMessage := "Expected action argument."
  const NoAddItemsMessage := "Expected at least one item name to add."
  const NoRemoveItemsMessage := "Expected at least one item name to remove."
  /** Println of the label and the three action names, separated by spaces. */
  const HelpLine := "Valid actions are: " + ActionAdd + " " + ActionRemove + " " + ActionList + "\n"

  /** What one run of the program leaves behind. */
  datatype Outcome = Outcome(output: string, exitCode: int, store: Option<string>)

  /** exit: print the message on its own line and stop with status 1, the file as it was. */
  function Exit(message: string, store: Option<string>): Outcome {
    Outcome(message + "\n", 1, store)
  }

  /** One run of the program. */
  function Run(args: seq<string>, store: Option<string>): (r: Outcome)
    ensures r.exitCode == 0 || r.exitCode == 1
    ensures r.exitCode == 1 ==> r.store == store && |r.output| > 0
    ensures store.Some? ==> r.store.Some?
    ensures r.store != store ==> |args| >= 3 && (args[1] == ActionAdd || args[1] == ActionRemove)
    ensures r.output == "" <==> r.exitCode == 0 && |args| >= 3 && (args[1] == ActionAdd || args[1] == ActionRemove)
  {
    if |args| < 2 then Exit(NoActionMessage, store)
    else
      var action := args[1];
      var items := args[2..];
      if action == ActionAdd then
        if |items| == 0 then Exit(NoAddItemsMessage, store)
        else Outcome("", 0, Some(Append(store, items)))
      else if action == ActionRemove then
        if |items| == 0 then Exit(NoRemoveItemsMessage, store)
        else
          match store
          case None => Exit(ReadError, store)
          case Some(contents) => Outcome("", 0, Some(Rewrite(contents, items)))
      else if action == ActionList then
        match store
        case None => Exit(ReadError, store)
        case Some(contents) => Outcome(Listing(contents), 0, store)
      else Outcome(HelpLine, 0, store)
  }

  /** An add with operands writes what Append defines. */
  lemma RunAddWrites(args: seq<string>, store: Option<string>)
    requires |args| >= 3 && args[1] == "add"
    ensures Run(args, store) == Outcome("", 0, Some(Append(store, args[2..])))
  {
  }

  /** A remove with operands on an existing file writes what Rewrite defines. */
  lemma RunRemoveWrites(args: seq<string>, contents: string)
    requires |args| >= 3 && args[1] == "remove"
    ensures Run(args, Some(contents)) == Outcome("", 0, Some(Rewrite(contents, args[2..])))
  {
  }

  /** Without an action the run is a usage error and the file is untouched. */
  lemma NoActionIsUsageError(args: seq<string>, store: Option<string>)
    requires |args| < 2
    ensures Run(args, store) == Outcome("Expected action argument.\n", 1, store)
  {
  }

  /** add without items is a usage error; the file is neither read nor created. */
  lemma AddWithoutItemsIsUsageError(prog: string, store: Option<string>)
    ensures Run([prog, "add"], store) == Outcome("Expected at least one item name to add.\n", 1, store)
  {
  }

  /** remove without items is a usage error; the file is neither read nor created. */
  lemma RemoveWithoutItemsIsUsageError(prog: string, store: Option<string>)
    ensures Run([prog, "remove"], store) == Outcome("Expected at least one item name to remove.\n", 1, store)
  {
  }

  /** Any other action prints the valid actions, succeeds, and changes nothing. */
  lemma UnknownActionPrintsHelp(args: seq<string>, store: Option<string>)
    requires |args| >= 2 && args[1] != "add" && args[1] != "remove" && args[1] != "list"
    ensures Run(args, store) == Outcome("Valid actions are: add remove list\n", 0, store)
  {
  }

  /** add appends each item and a newline, in order, to the old contents (or to
      an empty new file): the old contents are a prefix of the new ones, and
      the appended part splits back into the items. */
  lemma AddAppendsItems(args: seq<string>, store: Option<string>)
    requires |args| >= 3 && args[1] == "add"
    ensures var r := Run(args, store);
      && r.exitCode == 0 && r.output == ""
      && r.store == Some(store.GetOr("") + Unlines(args[2..]))
      && store.GetOr("") <= r.store.value
      && (NoNewline(args[2..]) ==> Split(r.store.value[|store.GetOr("")|..], '\n') == args[2..] + [""])
  {
  }

  /** remove needs the file: when it is absent the run fails with the read
      error and the file stays absent. */
  lemma RemoveOfAbsentFileFails(args: seq<string>)
    requires |args| >= 3 && args[1] == "remove"
    ensures Run(args, None) == Outcome("open items: no such file or directory\n", 1, None)
  {
  }

  /** list needs the file: when it is absent the run fails with the read
      error and the file stays absent. */
  lemma ListOfAbsentFileFails(args: seq<string>)
    requires |args| >= 2 && args[1] == "list"
    ensures Run(args, None) == Outcome("open items: no such file or directory\n", 1, None)
  {
  }

  /** remove writes exactly the parsed lines not named by an operand, each with
      a newline, in their original order; no survivor is named, and every copy
      of a named line is gone. */
  lemma RemoveKeepsExactlySurvivors(args: seq<string>, contents: string)
    requires |args| >= 3 && args[1] == "remove"
    ensures var r := Run(args, Some(contents));
      var kept := Filter(Parse(contents), args[2..]);
      && r.exitCode == 0 && r.output == ""
      && r.store == Some(Unlines(kept))
      && Split(r.store.value, '\n') == kept + [""]
      && (forall x :: x in kept <==> x in Parse(contents) && x !in args[2..])
      && (forall x :: multiset(kept)[x] == if x in args[2..] then 0 else multiset(Parse(contents))[x])
  {
    FilterCounts(Parse(contents), args[2..]);
    FilterMembers(Parse(contents), args[2..]);
    RewriteReadsBack(contents, args[2..]);
  }

  /** When no operand names a parsed line, remove writes every parsed line back,
      one newline-terminated line each: the trimmed contents and a newline. So
      the file is left unchanged exactly when it already had that form. */
  lemma RemoveWithoutMatchKeepsEveryLine(args: seq<string>, contents: string)
    requires |args| >= 3 && args[1] == "remove"
    requires forall i :: 0 <= i < |Parse(contents)| ==> Parse(contents)[i] !in args[2..]
    ensures Run(args, Some(contents)).store == Some(Unlines(Parse(contents)))
    ensures CountChar(Run(args, Some(contents)).store.value, '\n') == |Parse(contents)|
    ensures Run(args, Some(contents)).store == Some(TrimSpace(contents) + "\n")
    ensures Run(args, Some(contents)).store == Some(contents) <==> contents == TrimSpace(contents) + "\n"
  {
    FilterNoMatch(Parse(contents), args[2..]);
    UnlinesSplit(Parse(contents));
    UnlinesAsJoin(Parse(contents));
  }

  /** remove on an empty file writes one empty line, unless "" is an operand:
      the empty contents parse as the single line "". */
  lemma RemoveOnEmptyFile(args: seq<string>)
    requires |args| >= 3 && args[1] == "remove"
    ensures Run(args, Some("")).store == Some(if "" in args[2..] then "" else "\n")
  {
    assert TrimSpace("") == "";
    assert Parse("") == [""];
    assert Filter([""], args[2..]) == if "" in args[2..] then [] else [""] by {
      assert [""][1..] == [];
    }
    assert Unlines([""]) == "\n" by {
      assert [""][1..] == [];
    }
  }

  /** Two clean lines around an empty one parse as those three lines. */
  lemma ParseAroundEmptyLine(x: string, a: string)
    requires CleanItem(x) && CleanItem(a)
    ensures Parse(x + "\n\n" + a) == [x, "", a]
  {
    var s := x + "\n\n" + a;
    var lines := [x, "", a];
    assert Join(lines, '\n') == s by {
      assert lines[1..] == ["", a];
      assert ["", a][1..] == [a];
      assert Join([a], '\n') == a;
      assert Join(["", a], '\n') == "" + "\n" + a;
      assert Join(lines, '\n') == x + "\n" + ("" + "\n" + a);
    }
    assert Trimmed(s) by {
      assert s[0] == x[0] && s[|s| - 1] == a[|a| - 1];
    }
    TrimSpaceOfTrimmed(s);
    assert forall i :: 0 <= i < |lines| ==> '\n' !in lines[i];
    SplitJoin(lines, '\n');
  }

  /** A clean line padded with white space parses as that line alone. */
  lemma ParsePaddedLine(prefix: string, a: string, suffix: string)
    requires AllSpace(prefix) && AllSpace(suffix) && CleanItem(a)
    ensures Parse(prefix + a + suffix) == [a]
  {
    TrimSpaceUnique(prefix, a, suffix);
    SplitWithoutSep(a, '\n');
  }

  /** An empty line and then a is written as a newline, a and a newline. */
  lemma UnlinesBlankThen(a: string)
    ensures Unlines(["", a]) == "\n" + a + "\n"
  {
    UnlinesCons(a, []);
    UnlinesCons("", [a]);
    assert [""] + [a] == ["", a] && [a] + [] == [a];
  }

  /** Removing x from x, an empty line and a keeps the empty line and a. */
  lemma RewriteAroundEmptyLine(x: string, a: string)
    requires CleanItem(x) && CleanItem(a) && x != a
    ensures Rewrite(x + "\n\n" + a, [x]) == "\n" + a + "\n"
  {
    ParseAroundEmptyLine(x, a);
    FilterCons(a, [], [x]);
    FilterCons("", [a], [x]);
    FilterCons(x, ["", a], [x]);
    assert [x] + ["", a] == [x, "", a] && [""] + [a] == ["", a] && [a] + [] == [a];
    assert Filter([x, "", a], [x]) == ["", a];
    UnlinesBlankThen(a);
  }

  /** Removing anything but a from a padded with white space writes a and a newline. */
  lemma RewritePaddedLine(prefix: string, a: string, suffix: string, removals: seq<string>)
    requires AllSpace(prefix) && AllSpace(suffix) && CleanItem(a) && a !in removals
    ensures Rewrite(prefix + a + suffix, removals) == a + "\n"
  {
    ParsePaddedLine(prefix, a, suffix);
    FilterCons(a, [], removals);
    UnlinesCons(a, []);
    assert [a] + [] == [a];
  }

  /** remove is not idempotent: removing x from x, an empty line and a writes
      the empty line and a, and removing x again trims the now-leading empty
      line away. */
  lemma RemoveIsNotIdempotent(prog: string, x: string, a: string)
    requires CleanItem(x) && CleanItem(a) && x != a
    ensures var once := Run([prog, "remove", x], Some(x + "\n\n" + a)).store;
      && once == Some("\n" + a + "\n")
      && Run([prog, "remove", x], once).store == Some(a + "\n")
      && once != Some(a + "\n")
  {
    var args := [prog, "remove", x];
    assert args[2..] == [x];
    RunRemoveWrites(args, x + "\n\n" + a);
    RewriteAroundEmptyLine(x, a);
    RunRemoveWrites(args, "\n" + a + "\n");
    assert AllSpace("\n");
    RewritePaddedLine("\n", a, "\n", [x]);
    assert ("\n" + a + "\n")[0] != (a + "\n")[0];
  }

  /** Removing an item that is not stored leaves a file written by add from
      clean items exactly as it was. */
  lemma RemoveAbsentItemKeepsCleanFile(args: seq<string>, items: seq<string>)
    requires |args| >= 3 && args[1] == "remove"
    requires |items| >= 1 && AllClean(items)
    requires forall i :: 0 <= i < |items| ==> items[i] !in args[2..]
    ensures Run(args, Some(Unlines(items))) == Outcome("", 0, Some(Unlines(items)))
  {
    ParseUnlines(items);
    FilterNoMatch(items, args[2..]);
  }

  /** On a file not written that way the rewrite is not byte-for-byte: removing
      an absent item from a line with leading white space drops that white space. */
  lemma RemoveAbsentItemNormalisesFile(args: seq<string>, pad: string, a: string)
    requires |args| >= 3 && args[1] == "remove" && a !in args[2..]
    requires |pad| > 0 && AllSpace(pad) && CleanItem(a)
    ensures Run(args, Some(pad + a + "\n")).store == Some(a + "\n")
    ensures pad + a + "\n" != a + "\n"
  {
    RunRemoveWrites(args, pad + a + "\n");
    assert AllSpace("\n");
    RewritePaddedLine(pad, a, "\n", args[2..]);
    assert (pad + a + "\n")[0] == pad[0];
  }

  /** Operands are compared with the lines of the trimmed contents, so an operand
      removes a file that is just one line carrying leading white space, even
      though it does not equal that line byte for byte. */
  lemma RemoveMatchesTrimmedLine(args: seq<string>, pad: string, a: string)
    requires |args| >= 3 && args[1] == "remove" && a in args[2..]
    requires |pad| > 0 && AllSpace(pad) && CleanItem(a)
    ensures Run(args, Some(pad + a + "\n")).store == Some("")
    ensures pad + a != a
  {
    RunRemoveWrites(args, pad + a + "\n");
    assert AllSpace("\n");
    ParsePaddedLine(pad, a, "\n");
    FilterCons(a, [], args[2..]);
    assert |pad + a| > |a|;
  }

  /** Rewriting a file that is one clean line between white space, when an
      operand names that line, leaves nothing. */
  lemma RewriteNamedPaddedLine(prefix: string, a: string, suffix: string, removals: seq<string>)
    requires AllSpace(prefix) && AllSpace(suffix) && CleanItem(a) && a in removals
    ensures Rewrite(prefix + a + suffix, removals) == ""
  {
    ParsePaddedLine(prefix, a, suffix);
    FilterCons(a, [], removals);
  }

  /** Likewise at the other end: an operand removes a file that is just one line
      carrying trailing white space, even though it does not equal that line. */
  lemma RemoveMatchesTrimmedLastLine(args: seq<string>, a: string, pad: string)
    requires |args| >= 3 && args[1] == "remove" && a in args[2..]
    requires |pad| > 0 && AllSpace(pad) && CleanItem(a)
    ensures Run(args, Some(a + pad + "\n")).store == Some("")
    ensures a + pad != a
  {
    var contents := a + pad + "\n";
    assert AllSpace(pad + "\n");
    RewriteNamedPaddedLine("", a, pad + "\n", args[2..]);
    assert "" + a + (pad + "\n") == contents;
    RunRemoveWrites(args, contents);
    assert |a + pad| > |a|;
  }

  /** list prints the trimmed contents and a newline, and changes nothing. */
  lemma ListPrintsTrimmedContents(args: seq<string>, contents: string)
    requires |args| >= 2 && args[1] == "list"
    ensures Run(args, Some(contents)) == Outcome(TrimSpace(contents) + "\n", 0, Some(contents))
  {
  }

  /** add on an absent or empty file, then list, prints the clean items joined
      by newlines, in order and with duplicates. */
  lemma ListAfterAdd(prog: string, items: seq<string>, store: Option<string>)
    requires store == None || store == Some("")
    requires |items| >= 1 && AllClean(items)
    ensures Run([prog, "list"], Run([prog, "add"] + items, store).store).output == Join(items, '\n') + "\n"
  {
    assert ([prog, "add"] + items)[2..] == items;
    TrimUnlines(items);
  }

  /** add to an absent or empty file, then remove, then list prints exactly the
      added clean items that no operand of remove names, in their original order. */
  lemma ListAfterAddAndRemove(prog: string, items: seq<string>, removals: seq<string>, store: Option<string>)
    requires store == None || store == Some("")
    requires |items| >= 1 && AllClean(items) && |removals| >= 1
    ensures var added := Run([prog, "add"] + items, store).store;
      var removed := Run([prog, "remove"] + removals, added).store;
      Run([prog, "list"], removed).output == Join(Filter(items, removals), '\n') + "\n"
  {
    var add := [prog, "add"] + items;
    var remove := [prog, "remove"] + removals;
    assert add[1] == "add" && add[2..] == items;
    assert remove[1] == "remove" && remove[2..] == removals;
    RunAddWrites(add, store);
    assert Append(store, items) == Unlines(items);
    var kept := Filter(items, removals);
    ParseUnlines(items);
    RunRemoveWrites(remove, Unlines(items));
    ListPrintsTrimmedContents([prog, "list"], Unlines(kept));
    assert TrimSpace(Unlines(kept)) == Join(kept, '\n') by {
      if |kept| == 0 {
        TrimSpaceOfTrimmed("");
      } else {
        FilterKeepsClean(items, removals);
        TrimUnlines(kept);
      }
    }
  }
}

=== FILE: go_strings.dfy ===
/**
 The two Go standard-library string primitives the item store relies on,
 `strings.TrimSpace` and `strings.Split` (with a one-character separator),
 together with `strings.Join`, their inverse.
 */
module GoStrings {

  /** Unicode White_Space, the set reported by Go's unicode.IsSpace and
      stripped by strings.TrimSpace. '\U{000B}' is \v, '\U{000C}' is \f. */
  predicate IsSpace(c: char) {
    || c == '\t' || c == '\n' || c == '\U{000B}' || c == '\U{000C}' || c == '\r' || c == ' '
    || c == '\U{0085}' || c == '\U{00A0}' || c == '\U{1680}'
    || ('\U{2000}' <= c <= '\U{200A}')
    || c == '\U{2028}' || c == '\U{2029}' || c == '\U{202F}' || c == '\U{205F}' || c == '\U{3000}'
  }

  predicate AllSpace(s: string) {
    forall i :: 0 <= i < |s| ==> IsSpace(s[i])
  }

  /** Neither starts nor ends with white space. */
  predicate Trimmed(s: string) {
    |s| == 0 || (!IsSpace(s[0]) && !IsSpace(s[|s| - 1]))
  }

  /** Length of the white-space run at the start of s. */
  function LeadingSpace(s: string): (n: nat)
    ensures n <= |s|
    ensures AllSpace(s[..n])
    ensures n == |s| || !IsSpace(s[n])
  {
    if |s| == 0 || !IsSpace(s[0]) then 0
    else
      var m := LeadingSpace(s[1..]);
      assert s[..1 + m] == [s[0]] + s[1..][..m];
      1 + m
  }

  /** End of s once the white-space run at its end is cut off, never below lo. */
  function ContentEnd(s: string, lo: nat): (hi: nat)
    requires lo <= |s|
    ensures lo <= hi <= |s|
    ensures AllSpace(s[hi..])
    ensures hi == lo || !IsSpace(s[hi - 1])
    decreases |s|
  {
    if |s| == lo || !IsSpace(s[|s| - 1]) then |s|
    else
      var hi := ContentEnd(s[..|s| - 1], lo);
      assert s[hi..] == s[..|s| - 1][hi..] + [s[|s| - 1]];
      hi
  }

  /** Go's strings.TrimSpace: s without its leading and trailing white space. */
  function TrimSpace(s: string): (r: string)
    ensures Trimmed(r)
    ensures LeadingSpace(s) + |r| <= |s|
    ensures r == s[LeadingSpace(s)..LeadingSpace(s) + |r|]
    ensures AllSpace(s[..LeadingSpace(s)]) && AllSpace(s[LeadingSpace(s) + |r|..])
  {
    var i := LeadingSpace(s);
    s[i..ContentEnd(s, i)]
  }

  /** A white-space prefix followed by a non-space (or nothing) is the leading white space. */
  lemma LeadingSpaceIs(s: string, n: nat)
    requires n <= |s| && AllSpace(s[..n]) && (n == |s| || !IsSpace(s[n]))
    ensures LeadingSpace(s) == n
  {
    var m := LeadingSpace(s);
    assert forall k :: 0 <= k < n ==> IsSpace(s[k]) by {
      forall k | 0 <= k < n ensures IsSpace(s[k]) { assert s[..n][k] == s[k]; }
    }
    assert forall k :: 0 <= k < m ==> IsSpace(s[k]) by {
      forall k | 0 <= k < m ensures IsSpace(s[k]) { assert s[..m][k] == s[k]; }
    }
  }

  /** A white-space suffix preceded by a non-space (or by lo) is where the content ends. */
  lemma ContentEndIs(s: string, lo: nat, j: nat)
    requires lo <= j <= |s| && AllSpace(s[j..]) && (j == lo || !IsSpace(s[j - 1]))
    ensures ContentEnd(s, lo) == j
  {
    var h := ContentEnd(s, lo);
    assert forall k :: j <= k < |s| ==> IsSpace(s[k]) by {
      forall k | j <= k < |s| ensures IsSpace(s[k]) { assert s[j..][k - j] == s[k]; }
    }
    assert forall k :: h <= k < |s| ==> IsSpace(s[k]) by {
      forall k | h <= k < |s| ensures IsSpace(s[k]) { assert s[h..][k - h] == s[k]; }
    }
  }

  /** TrimSpace is characterised by its result: whenever s is white space, then
      a trimmed string t, then white space, TrimSpace(s) is exactly t. */
  lemma TrimSpaceUnique(a: string, t: string, b: string)
    requires AllSpace(a) && AllSpace(b) && Trimmed(t)
    ensures TrimSpace(a + t + b) == t
  {
    var s := a + t + b;
    if |t| == 0 {
      assert AllSpace(s[..|s|]) by {
        assert s[..|s|] == a + b;
        forall k | 0 <= k < |s| ensures IsSpace(s[k]) {
          if k < |a| { assert s[k] == a[k]; } else { assert s[k] == b[k - |a|]; }
        }
      }
      LeadingSpaceIs(s, |s|);
    } else {
      assert s[..|a|] == a;
      assert s[|a|] == t[0];
      LeadingSpaceIs(s, |a|);
      assert s[|a| + |t|..] == b;
      assert s[|a| + |t| - 1] == t[|t| - 1];
      ContentEndIs(s, |a|, |a| + |t|);
      assert s[|a|..|a| + |t|] == t;
    }
  }

  /** A string already trimmed is left as it is. */
  lemma TrimSpaceOfTrimmed(t: string)
    requires Trimmed(t)
    ensures TrimSpace(t) == t
  {
    TrimSpaceUnique([], t, []);
    assert [] + t + [] == t;
  }

  lemma TrimSpaceIdempotent(s: string)
    ensures TrimSpace(TrimSpace(s)) == TrimSpace(s)
  {
    TrimSpaceOfTrimmed(TrimSpace(s));
  }

  /** Number of occurrences of c in s. */
  function CountChar(s: string, c: char): (n: nat)
    ensures n <= |s|
    ensures n == 0 <==> c !in s
  {
    if |s| == 0 then 0
    else (if s[0] == c then 1 else 0) + CountChar(s[1..], c)
  }

  /** Go's strings.Join(parts, string(sep)). */
  function Join(parts: seq<string>, sep: char): string
  {
    if |parts| == 0 then ""
    else if |parts| == 1 then parts[0]
    else parts[0] + [sep] + Join(parts[1..], sep)
  }

  /** A join starts with the first character of its first part. */
  lemma JoinFirst(parts: seq<string>, sep: char)
    requires |parts| >= 1 && |parts[0]| > 0
    ensures |Join(parts, sep)| > 0 && Join(parts, sep)[0] == parts[0][0]
  {
  }

  /** A join ends with the last character of its last part. */
  lemma {:induction false} JoinLast(parts: seq<string>, sep: char)
    requires |parts| >= 1 && |parts[|parts| - 1]| > 0
    ensures |Join(parts, sep)| > 0
    ensures Join(parts, sep)[|Join(parts, sep)| - 1] == parts[|parts| - 1][|parts[|parts| - 1]| - 1]
    decreases |parts|
  {
    if |parts| > 1 {
      JoinLast(parts[1..], sep);
    }
  }

  /** Putting a character in front of the first part puts it in front of the join. */
  lemma {:induction false} JoinPrepend(c: char, parts: seq<string>, sep: char)
    requires |parts| >= 1
    ensures Join([[c] + parts[0]] + parts[1..], sep) == [c] + Join(parts, sep)
  {
    var moved := [[c] + parts[0]] + parts[1..];
    if |parts| > 1 {
      assert moved[1..] == parts[1..];
    }
  }

  /** Go's strings.Split(s, string(sep)): the pieces of s between occurrences of
      sep, so k separators give k + 1 pieces and Split("", sep) == [""]. */
  function Split(s: string, sep: char): (parts: seq<string>)
    ensures |parts| == CountChar(s, sep) + 1
    ensures forall i :: 0 <= i < |parts| ==> sep !in parts[i]
    ensures Join(parts, sep) == s
  {
    if |s| == 0 then [""]
    else
      var rest := Split(s[1..], sep);
      if s[0] == sep then
        assert [s[0]] + s[1..] == s;
        [""] + rest
      else
        var parts := [[s[0]] + rest[0]] + rest[1..];
        JoinPrepend(s[0], rest, sep);
        assert [s[0]] + s[1..] == s;
        parts
  }

  /** Splitting a piece free of sep, a separator and the rest, gives the piece first. */
  lemma {:induction false} SplitAfterPiece(x: string, sep: char, t: string)
    requires sep !in x
    ensures Split(x + [sep] + t, sep) == [x] + Split(t, sep)
    decreases |x|
  {
    var s := x + [sep] + t;
    if |x| == 0 {
      assert s[1..] == t;
    } else {
      assert s[1..] == x[1..] + [sep] + t;
      SplitAfterPiece(x[1..], sep, t);
      assert [x[0]] + x[1..] == x;
    }
  }

  /** Splitting a string free of sep gives the string itself. */
  lemma {:induction false} SplitWithoutSep(x: string, sep: char)
    requires sep !in x
    ensures Split(x, sep) == [x]
  {
    var parts := Split(x, sep);
    assert |parts| == 1;
    assert Join(parts, sep) == parts[0];
  }

  /** Split undoes Join, so Join and Split are inverse (Split's own contract
      gives the other direction). */
  lemma {:induction false} SplitJoin(parts: seq<string>, sep: char)
    requires |parts| >= 1
    requires forall i :: 0 <= i < |parts| ==> sep !in parts[i]
    ensures Split(Join(parts, sep), sep) == parts
    decreases |parts|
  {
    if |parts| == 1 {
      SplitWithoutSep(parts[0], sep);
    } else {
      SplitJoin(parts[1..], sep);
      SplitAfterPiece(parts[0], sep, Join(parts[1..], sep));
      assert [parts[0]] + parts[1..] == parts;
    }
  }
}

=== FILE: store.dfy ===
/**
 The three operations of the item store on the contents of its data file:
 `add` appends one line per item, `remove` re-parses the file and rewrites it
 without the named items, and `list` prints the trimmed contents. The file is
 its contents as a string; a file that does not exist is None.
 */
module Store {
  import opened Wrappers
  import opened GoStrings

  /** What Go's os.ReadFile reports when the data file, whose fixed name is
      "items", does not exist. */
  const ReadError := "open items: no such file or directory"

  /** No item contains the line delimiter. */
  predicate NoNewline(items: seq<string>) {
    forall i :: 0 <= i < |items| ==> '\n' !in items[i]
  }

  /** An item that survives a round trip through the file unchanged: not
      empty, one line, and without white space at either end. */
  predicate CleanItem(x: string) {
    |x| > 0 && '\n' !in x && Trimmed(x)
  }

  /** Every item is clean. */
  predicate AllClean(items: seq<string>) {
    forall i :: 0 <= i < |items| ==> CleanItem(items[i])
  }

  /** The file format: each item followed by a newline. */
  function Unlines(items: seq<string>): string
  {
    if |items| == 0 then "" else items[0] + "\n" + Unlines(items[1..])
  }

  /** The file format writes items one at a time from the front. */
  lemma UnlinesCons(item: string, rest: seq<string>)
    ensures Unlines([item] + rest) == item + "\n" + Unlines(rest)
  {
    assert ([item] + rest)[1..] == rest;
  }

  /** The file format is the items joined by newlines, with an empty final
      piece after the last newline. */
  lemma {:induction false} UnlinesJoin(items: seq<string>)
    ensures Unlines(items) == Join(items + [""], '\n')
    decreases |items|
  {
    if |items| > 0 {
      assert (items + [""])[1..] == items[1..] + [""];
      UnlinesJoin(items[1..]);
    }
  }

  /** Writing items a, then items b, writes the same as writing a + b at once. */
  lemma {:induction false} UnlinesAppend(a: seq<string>, b: seq<string>)
    ensures Unlines(a + b) == Unlines(a) + Unlines(b)
    decreases |a|
  {
    if |a| > 0 {
      assert (a + b)[1..] == a[1..] + b;
      UnlinesAppend(a[1..], b);
    } else {
      assert a + b == b;
    }
  }

  /** Reading the file format back: splitting on newlines gives the items and
      the empty piece after the final newline. */
  lemma UnlinesSplit(items: seq<string>)
    requires NoNewline(items)
    ensures Split(Unlines(items), '\n') == items + [""]
    ensures CountChar(Unlines(items), '\n') == |items|
  {
    var parts := items + [""];
    assert forall i :: 0 <= i < |parts| ==> '\n' !in parts[i] by {
      forall i | 0 <= i < |parts| ensures '\n' !in parts[i] {
        if i < |items| { assert parts[i] == items[i]; }
      }
    }
    SplitJoin(parts, '\n');
    UnlinesJoin(items);
  }

  /** The lines of items that are not named in removals, in their original
      order: what the loop of remove keeps. */
  function Filter(lines: seq<string>, removals: seq<string>): seq<string>
  {
    if |lines| == 0 then []
    else (if lines[0] in removals then [] else [lines[0]]) + Filter(lines[1..], removals)
  }

  /** Filter takes lines one at a time from the front. */
  lemma FilterCons(line: string, rest: seq<string>, removals: seq<string>)
    ensures Filter([line] + rest, removals) == (if line in removals then [] else [line]) + Filter(rest, removals)
  {
    assert ([line] + rest)[1..] == rest;
  }

  /** A line survives exactly when it was there and no operand names it. */
  lemma {:induction false} FilterMembers(lines: seq<string>, removals: seq<string>)
    ensures forall x :: x in Filter(lines, removals) <==> x in lines && x !in removals
    decreases |lines|
  {
    if |lines| > 0 {
      FilterMembers(lines[1..], removals);
      assert lines == [lines[0]] + lines[1..];
    }
  }

  /** Lines taken from clean items are clean. */
  lemma {:induction false} FilterKeepsClean(items: seq<string>, removals: seq<string>)
    requires AllClean(items)
    ensures AllClean(Filter(items, removals))
    decreases |items|
  {
    if |items| > 0 {
      FilterKeepsClean(items[1..], removals);
    }
  }

  /** Filter drops every copy of a named line and keeps every copy of any other. */
  lemma {:induction false} FilterCounts(lines: seq<string>, removals: seq<string>)
    ensures forall x :: multiset(Filter(lines, removals))[x] == if x in removals then 0 else multiset(lines)[x]
    decreases |lines|
  {
    if |lines| > 0 {
      FilterCounts(lines[1..], removals);
      assert lines == [lines[0]] + lines[1..];
    }
  }

  /** Filter works line by line: it distributes over concatenation, so the
      survivors keep their relative order. */
  lemma {:induction false} FilterAppend(a: seq<string>, b: seq<string>, removals: seq<string>)
    ensures Filter(a + b, removals) == Filter(a, removals) + Filter(b, removals)
    decreases |a|
  {
    if |a| == 0 {
      assert a + b == b;
    } else {
      assert (a + b)[1..] == a[1..] + b;
      FilterAppend(a[1..], b, removals);
    }
  }

  /** When no line is named, every line is kept. */
  lemma {:induction false} FilterNoMatch(lines: seq<string>, removals: seq<string>)
    requires forall i :: 0 <= i < |lines| ==> lines[i] !in removals
    ensures Filter(lines, removals) == lines
    decreases |lines|
  {
    if |lines| > 0 {
      FilterNoMatch(lines[1..], removals);
    }
  }

  /** remove's reading of the file: trim, then split on newlines. */
  function Parse(contents: string): (lines: seq<string>)
    ensures |lines| >= 1
    ensures NoNewline(lines)
    ensures Join(lines, '\n') == TrimSpace(contents)
  {
    Split(TrimSpace(contents), '\n')
  }

  /** add: the new contents of the file (created empty when absent). */
  function Append(existing: Option<string>, items: seq<string>): (contents: string)
    ensures existing.GetOr("") <= contents
    ensures contents == existing.GetOr("") + Join(items + [""], '\n')
    ensures NoNewline(items) ==> Split(contents[|existing.GetOr("")|..], '\n') == items + [""]
  {
    var prior := existing.GetOr("");
    var contents := prior + Unlines(items);
    UnlinesJoin(items);
    assert contents[|prior|..] == Unlines(items);
    if NoNewline(items) then UnlinesSplit(items); contents else contents
  }

  /** remove: the contents written after dropping every line named in removals. */
  function Rewrite(contents: string, removals: seq<string>): string
  {
    Unlines(Filter(Parse(contents), removals))
  }

  /** What remove writes reads back as exactly the surviving lines, and the
      file is left empty exactly when every parsed line is named. */
  lemma RewriteReadsBack(contents: string, removals: seq<string>)
    ensures Split(Rewrite(contents, removals), '\n') == Filter(Parse(contents), removals) + [""]
    ensures Rewrite(contents, removals) == ""
        <==> forall i :: 0 <= i < |Parse(contents)| ==> Parse(contents)[i] in removals
  {
    var lines := Parse(contents);
    var kept := Filter(lines, removals);
    FilterMembers(lines, removals);
    NoNewlineSubset(kept, lines);
    UnlinesSplit(kept);
    if kept != [] {
      assert kept[0] in kept;
    } else {
      forall i | 0 <= i < |lines| ensures lines[i] in removals {
        assert lines[i] in lines;
      }
    }
  }

  /** list: what is printed, the trimmed contents and a newline. */
  function Listing(contents: string): (out: string)
    ensures |out| >= 1 && out[|out| - 1] == '\n'
    ensures Split(out[..|out| - 1], '\n') == Parse(contents)
  {
    var out := TrimSpace(contents) + "\n";
    assert out[..|out| - 1] == TrimSpace(contents);
    out
  }

  /** A non-empty file written by add is the items joined by newlines, plus a final newline. */
  lemma {:induction false} UnlinesAsJoin(items: seq<string>)
    requires |items| >= 1
    ensures Unlines(items) == Join(items, '\n') + "\n"
    decreases |items|
  {
    if |items| > 1 {
      UnlinesAsJoin(items[1..]);
    }
  }

  /** Every subset of lines free of newlines is free of newlines. */
  lemma NoNewlineSubset(a: seq<string>, b: seq<string>)
    requires NoNewline(b)
    requires forall x :: x in a ==> x in b
    ensures NoNewline(a)
  {
    forall i | 0 <= i < |a| ensures '\n' !in a[i] {
      assert a[i] in b;
      var j :| 0 <= j < |b| && b[j] == a[i];
    }
  }

  /** Trimming a file written from clean items leaves the items joined by newlines. */
  lemma TrimUnlines(items: seq<string>)
    requires |items| >= 1 && AllClean(items)
    ensures TrimSpace(Unlines(items)) == Join(items, '\n')
  {
    var j := Join(items, '\n');
    UnlinesAsJoin(items);
    assert CleanItem(items[0]) && CleanItem(items[|items| - 1]);
    JoinFirst(items, '\n');
    JoinLast(items, '\n');
    assert Trimmed(j);
    assert AllSpace("\n") && AllSpace("");
    TrimSpaceUnique("", j, "\n");
    assert "" + j + "\n" == Unlines(items);
  }

  /** A file written from clean items reads back as exactly those items. */
  lemma ParseUnlines(items: seq<string>)
    requires |items| >= 1 && AllClean(items)
    ensures Parse(Unlines(items)) == items
  {
    TrimUnlines(items);
    assert NoNewline(items);
    SplitJoin(items, '\n');
  }

  /** Looking up a key in a Go map[string]bool: a missing key reads as false. */
  function Lookup(m: map<string, bool>, k: string): bool {
    if k in m then m[k] else false
  }

  /** The map remove builds from its operands: true exactly for the named items. */
  method RemovalSet(removals: seq<string>) returns (remove: map<string, bool>)
    ensures forall x :: Lookup(remove, x) <==> x in removals
  {
    remove := map[];
    for i := 0 to |removals|
      invariant forall x :: Lookup(remove, x) <==> x in removals[..i]
    {
      assert removals[..i + 1] == removals[..i] + [removals[i]];
      remove := remove[removals[i] := true];
    }
    assert removals[..|removals|] == removals;
  }

  /** One more line through the writing loop adds that line and a newline,
      unless it is named. */
  lemma WriteOneMore(done: seq<string>, item: string, removals: seq<string>)
    ensures Unlines(Filter(done + [item], removals))
         == Unlines(Filter(done, removals)) + (if item in removals then "" else item + "\n")
  {
    FilterAppend(done, [item], removals);
    var step := Filter([item], removals);
    assert step == if item in removals then [] else [item] by {
      assert [item][1..] == [];
    }
    UnlinesAppend(Filter(done, removals), step);
    assert Unlines([item]) == item + "\n" by {
      assert [item][1..] == [];
    }
  }

  /** The writing loop of remove: each line the map does not name, followed
      by a newline, in order. */
  method WriteSurvivors(lines: seq<string>, remove: map<string, bool>, ghost removals: seq<string>)
    returns (written: string)
    requires forall x :: Lookup(remove, x) <==> x in removals
    ensures written == Unlines(Filter(lines, removals))
  {
    written := "";
    for index := 0 to |lines|
      invariant written == Unlines(Filter(lines[..index], removals))
    {
      var item := lines[index];
      assert lines[..index + 1] == lines[..index] + [item];
      WriteOneMore(lines[..index], item, removals);
      if !Lookup(remove, item) {
        written := written + item + "\n";
      }
    }
    assert lines[..|lines|] == lines;
  }

  /** remove as the source writes it: parse, build the map, then write the
      lines the map does not name. */
  method RemoveLines(contents: string, removals: seq<string>) returns (written: string)
    ensures written == Rewrite(contents, removals)
  {
    var lines := Split(TrimSpace(contents), '\n');
    var remove := RemovalSet(removals);
    written := WriteSurvivors(lines, remove, removals);
  }

  /** add as the source writes it: open the file (empty when it did not
      exist) and write each item and a newline in turn. */
  method AppendLines(existing: Option<string>, items: seq<string>) returns (contents: string)
    ensures contents == Append(existing, items)
  {
    contents := existing.GetOr("");
    for i := 0 to |items|
      invariant contents == existing.GetOr("") + Unlines(items[..i])
    {
      assert items[..i + 1] == items[..i] + [items[i]];
      UnlinesAppend(items[..i], [items[i]]);
      contents := contents + items[i] + "\n";
    }
    assert items[..|items|] == items;
  }
}

=== FILE: wrappers.dfy ===
/** The optional value used for a file that may or may not exist. */
module Wrappers {

  datatype Option<+T> = None | Some(value: T) {

    /** The file's contents, or the given default when there is no file. */
    function GetOr(default: T): T {
      match this
      case Some(v) => v
      case None() => default
    }
  }
}
